=== FILE: README.md ===
# backbone.fetch-cache: a verified model of the cache engine

backbone.fetch-cache is a client-side response cache for Backbone models and
collections. It replaces `fetch` so that a request can be answered from a
dictionary of earlier responses, and it persists that dictionary to the
browser's local storage. When storage is full, it evicts the entry that
expires soonest. It also records cacheable requests so they can be replayed
("prefetched") on a later start-up, through a small queue that holds back
while two requests are already in flight.

This project models that engine in Dafny and proves what it promises:

- `types.dfy` (`Types`) holds the values the engine works on: keys, payloads,
  options and subjects. Every JavaScript truthiness test is spelled out.
- `keys.dfy` (`Keys`) is cache-key derivation (`getCacheKey`) and the key
  resolution of `getCache` and `clearItem`.
- `entries.dfy` (`Entries`) is the entry `setCache` builds, its expiry
  arithmetic, and staleness.
- `decision.dfy` (`ReadDecision`) is the read decision shared by
  `Model.prototype.fetch` and `Collection.prototype.fetch`. It bypasses the
  cache, serves from it, goes to the network, or does both.
- `eviction.dfy` (`Eviction`) is `priorityFn` and `_prioritize`.
- `prefetch.dfy` (`Prefetch`) is the prefetch record `saveToPrefetch`
  stores, and the replay guard of `_prefetchInitializer`.
- `dispatch.dfy` (`Dispatch`) is `fetchHelper`: a FIFO queue drained while
  `$.active < 2`.
- `engine.dfy` (`Engine`) is the stateful part: class `FetchCache` and its
  methods.
  - `_cache` and `localStorageContent` are two `Dict` objects. With storage
    on, `getLocalStorage` makes both names refer to the same object at
    start-up. With storage off it returns early, and the two stay distinct
    empty dictionaries. The model keeps this: they are one object iff storage
    is on.
  - The write path (`setCache`, `setLocalStorage` with quota eviction),
    invalidation (`clearItem`, `sync`), `fetch`, and the prefetch
    bookkeeping are methods of this class.

Outside inputs are parameters:

- the clock is `now`;
- the browser's answer to a `localStorage.setItem` of a given dictionary is
  `backend`;
- `$.active` at each evaluation of `$.active < 2` is the trace `active`;
- the network's answer to a delegated fetch is `response`;
- the records parsed from the prefetch slot are `requests`.

The model follows the code, including where it behaves in ways a reader
might not expect. The one exception is the key of a function subject, a
defect of the code listed under Findings: the engine derives keys with the
corrected `Keys.CacheKey`, and `Keys.CacheKeyAsWritten` keeps the code's
behaviour beside it. Behaviour of the code worth knowing, modelled as written:

- `{cache: false, prefill: true}` still serves from the cache, because the
  read path tests only `cache || prefill`.
- An entry written with `expires: false` is not protected from eviction.
  `Eviction.UnexpiringEntryIsEvictable` shows it is picked when it is the
  only entry.
- The code has no etag or conditional-request handling, and no "prefetch
  loaded" signal.
- A replay goes through the caching `fetch`, not the raw network method. Its
  freshness guard never skips a replay (`Prefetch.ReplayAlwaysFetches`).
- On a quota error the save is retried automatically, one eviction per
  round. It stops when the save fits, when the dictionary is empty, or when a
  later round fails with another code, which is rethrown.
- A malformed persisted snapshot is not caught: `JSON.parse` throws.
- `getLastSync` ignores its options.
- `prefillSuccess` is not removed from a stored prefetch record.
- When `_cache` and `localStorageContent` are one object, `clearItem`
  deletes the key before testing `localStorageContent[key]`. So the removal
  is never persisted (`Engine.FetchCache.ClearItem`).

## Model

| member | source | states |
|---|---|---|
| `Keys.CacheKey` | backbone.fetch-cache.js:108-131 | A plain key with no data is its own key. A model without a custom key and with no `opts.url` or `data` gets its resolved `url`. (A function subject is called with the options, as the code evidently intends; see Findings.) |
| `Keys.CacheKeyAsWritten` | backbone.fetch-cache.js:108-131 | Exactly as written: a function subject goes through the object branch, so its key is its `url` property or `opts.url`, with the query suffix. |
| `Keys.LookupKey` | backbone.fetch-cache.js:212-217 | `getCache` and `clearItem` use a plain value as it is, and derive a model's or collection's key with `getCacheKey`. |
| `Keys.CustomKeyIsVerbatim` | backbone.fetch-cache.js:109-113 | A subject with its own `getCacheKey` gets exactly that method's result, with no url and no `?` suffix. |
| `Keys.FunctionSubjectIsCalled` | backbone.fetch-cache.js:120-122 | A function subject's key is the function applied to the options, with no suffix. |
| `Keys.UrlOptionWins` | backbone.fetch-cache.js:115-119 | A truthy `opts.url` overrides the subject's `url`: any two subjects without custom keys get the same, truthy key. |
| `Keys.QuerySuffix` | backbone.fetch-cache.js:123-130 | Truthy string `data` gives `base + "?" + data`, an object gives `base + "?" + $.param(data)`, and no data gives the base alone. |
| `Keys.DistinctQueriesDistinctKeys` | backbone.fetch-cache.js:123-130 | The same url with two different query strings gives two different keys. |
| `Keys.AsWrittenAgreesOffFunctions` | backbone.fetch-cache.js:108-131 | For every subject that is not a function, the code as written and the corrected derivation agree. |
| `Keys.FunctionSubjectNotCalledAsWritten` | backbone.fetch-cache.js:109-122 | For `() => "/widgets"`, the code as written gives the key `undefined` where the lazy-key branch gives `"/widgets"`. |
| `Entries.ExpiryFor` | backbone.fetch-cache.js:158-159 | `expires` is `false` iff the option is `false`; otherwise it is `now + (opt \|\| 300) * 1000`: a non-zero lifetime in seconds as given, and 300 seconds when the option is unset or `0`. |
| `Entries.NewEntry` | backbone.fetch-cache.js:138-183 | The entry holds the payload; its `expires` and `prefillExpires` are the values `ExpiryFor` gives for the two options at `now` (so `false` exactly when the option is `false`); `lastSync = opts.lastSync \|\| now`. |
| `Entries.NeverExpires` | backbone.fetch-cache.js:505-507 | An entry written with `expires: false` is never expired. |
| `Entries.ExpiryBoundary` | backbone.fetch-cache.js:505-507 | An entry with a positive lifetime of `s` seconds written at `now` is expired exactly from `now + s*1000` on, since the test is `<=`. |
| `Entries.ExpiredStaysExpired` | backbone.fetch-cache.js:505-507 | Once expired, an entry stays expired at every later time. |
| `ReadDecision.Decide` | backbone.fetch-cache.js:455-535 | Bypass iff caching is disabled. The cache is served iff the entry is not expired, `cache \|\| prefill` is set and the value is truthy; it serves the cached value with the `async` delivery. The network call is skipped iff the cache is served and the request is not prefilling. |
| `ReadDecision.WriteThenReadServes` | backbone.fetch-cache.js:505-531 | A `cache: true` response written at `now` is served from the cache, with no request, at any time before it expires. |
| `ReadDecision.ExpiredEntryIsRefetched` | backbone.fetch-cache.js:505-513 | From the expiry instant on, the same read goes to the network only. |
| `ReadDecision.PrefillServesThenRefreshes` | backbone.fetch-cache.js:473-475 | `isPrefilling` reads the `prefillExpires` option. Without it, a fresh hit is served and the request is still made. |
| `ReadDecision.ServedEarlierToo` | backbone.fetch-cache.js:505-513 | A read served from the cache at some time would also be served at any earlier time. |
| `ReadDecision.MissGoesToNetwork` | backbone.fetch-cache.js:505-513 | With no entry there is nothing to serve, whatever the options. |
| `Eviction.Priority` | backbone.fetch-cache.js:64-70 | When both entries have a truthy numeric `expires`, the comparator orders them by it. Otherwise the sort reads the result as "equal". |
| `Eviction.Prioritize` | backbone.fetch-cache.js:72-76 | An empty dictionary gives `undefined`. Otherwise the result is one of its keys, and when every entry has a numeric `expires`, it is a key whose `expires` is minimal. |
| `Eviction.UnexpiringEntryIsEvictable` | backbone.fetch-cache.js:64-76 | An entry that never expires is still picked when it is the only one. |
| `Engine.DeleteWithPriority` | backbone.fetch-cache.js:88-93 | Removes exactly the key `_prioritize` picks and leaves every other entry as it was. On an empty dictionary it removes nothing. |
| `Engine.FetchCache.SetLocalStorage` | backbone.fetch-cache.js:239-253 | Its whole effect is `SaveEffect`. With storage off, nothing happens. Otherwise it saves, evicting entries on codes 22/1014 only. Any other code is rethrown, and the slot is written only on success. The evicted keys are old keys and the dictionary loses exactly them. Each key was evicted after a quota error on the dictionary as it then was, and is the one `_prioritize` picks from it (`QuotaRound`), so the loop stops at the first save that does not fail with a quota code. When every entry has a numeric `expires` (`AllRanked`), each evicted entry expires no later than every kept one. A save that fits at once, or fails at once with another code, evicts nothing; the latter is rethrown. |
| `Engine.SkipReasonFor` | backbone.fetch-cache.js:143-156 | `setCache` writes iff the key is truthy, `cache !== false` and `cache \|\| prefill`. `cache: false` always stops the write, even with `prefill`. |
| `Engine.InvalidationKeys` | backbone.fetch-cache.js:565-575 | The keys cleared on a write: the model's key with the sync options, then its collection's key with none. |
| `Engine.FetchCache.constructor` | backbone.fetch-cache.js:382-391 | With storage on, `_cache` and `localStorageContent` are one dictionary, primed from the stored snapshot. With storage off, they are two distinct empty dictionaries. So they are one object iff storage is on (`Coherent`). Caching is enabled and prefetch is off. |
| `Engine.FetchCache.GetCache` | backbone.fetch-cache.js:212-220 | The entry under the resolved key, if any. |
| `Engine.FetchCache.GetLastSync` | backbone.fetch-cache.js:222-224 | The `lastSync` of the entry under the key resolved WITHOUT the options. |
| `Engine.FetchCache.ClearItem` | backbone.fetch-cache.js:226-237 | The key is removed from `_cache`, and afterwards it is in neither dictionary, so a second call is a no-op. The removal is persisted iff the dictionaries are distinct and `localStorageContent` held the key, and the persisting has the full effect of `setLocalStorage` (`SaveEffect`) on the dictionary without the key. Otherwise `localStorageContent` just loses the key and the slot is untouched. |
| `Engine.FetchCache.SaveToPrefetch` | backbone.fetch-cache.js:194-210 | Stores the record built from the caller's options under `getCacheKey(instance, opts)` (the corrected derivation for a function subject), and changes no other record. |
| `Engine.FetchCache.Store` | backbone.fetch-cache.js:185-188 | Both dictionaries get the entry under the key; `localStorageContent` is then persisted with the full effect of `setLocalStorage` (`SaveEffect`), so the only other keys that leave are quota evictions in `_prioritize` order, and none when storage is off or the first save fits. When the dictionaries are distinct, `_cache` is the old one with the entry added. The new entry is in `_cache` unless it was itself evicted. |
| `Engine.FetchCache.SetCache` | backbone.fetch-cache.js:133-192 | `SetCacheEffect`: a guard returns iff the key is falsy, `cache` is `false`, or neither `cache` nor `prefill` is set, and then nothing changes. Otherwise the entry is written under the key (the corrected derivation for a function subject) with the effect `Store` states, so outside quota evictions no other key changes. The prefetch record is stored iff prefetch is on and the save did not throw; otherwise `_prerequests` is unchanged. |
| `Engine.FetchCache.Fetch` | backbone.fetch-cache.js:455-554 | The decision is `Decide` on the entry found for the request; the Collection copy at lines 585-684 is the same. A response from the network is written iff the cache is enabled and the network was called, and the write is exactly a `setCache` of the response stamped with the time it arrived (`SetCacheEffect`); with no write, nothing changes. A write that was not evicted is then served from the cache, with no new request, to the same request made at that time, when all of these hold: `cache: true`, no `prefill`, a truthy payload (`Payload?`), and a positive lifetime or `expires: false`. With `prefill: true` the same read serves and still goes to the network, and a null or empty response is written but never served. |
| `Engine.FetchCache.Sync` | backbone.fetch-cache.js:558-583 | A read, or any call while caching is disabled, clears nothing. Otherwise it clears the invalidation keys in order, stopping after a clear whose save throws, and the error escapes. `_cache` loses exactly the cleared keys, and when no error escapes (the call delegates) all of them were cleared. With the dictionaries as the set-up leaves them (one object iff storage is on), no error escapes, so every invalidation key is always cleared, `localStorageContent` loses exactly them, and the persisted slot is untouched: with storage on, the cleared entries stay in storage until the next successful save. |
| `Engine.FetchCache.RunReplay` | backbone.fetch-cache.js:417-422 | The guard always lets the replay through. The replay is a `fetch` of a fresh instance of the recorded kind with the recorded options: the same decision, and the same write (`SetCacheEffect`) or no change at all. |
| `Engine.FetchCache.PrefetchInitializer` | backbone.fetch-cache.js:413-426 | Each record is queued as a replay, in order, through `fetchHelper`. What started, the queue left behind and the number of `$.active` checks are exactly `PushAll` of the replays on the old queue. So with `$.active >= 2` at every check nothing starts and every replay stays queued behind the old queue, and with `$.active < 2` at every check the old queue and every replay start, in order, and nothing is left. `_prerequests` is empty afterwards. |
| `Engine.FetchCache.EnablePrefetch` | backbone.fetch-cache.js:55-58 | Prefetch is on. With storage available the stored records go through `PrefetchInitializer`, with the same `PushAll` outcome and the same two budget consequences. Otherwise nothing is loaded and the dispatcher is untouched. |
| `Engine.FetchCache.DisablePrefetch` | backbone.fetch-cache.js:60-62 | Prefetch is off. |
| `Prefetch.StoredOptions` | backbone.fetch-cache.js:195-207 | The stored options never hold `beforeSend`, `success`, `fail` or `error`. A given `opts.url` is kept, the instance url is injected otherwise, and every other option is as given. |
| `Prefetch.RecordFor` | backbone.fetch-cache.js:194-202 | The record's type is `Model` exactly for a model, its time is the save time, and its options are the sanitised ones. |
| `Prefetch.StoredRecordKeepsUrl` | backbone.fetch-cache.js:198-200 | A record saved from options or an instance that has a url carries a url. |
| `Prefetch.ReplayAlwaysFetches` | backbone.fetch-cache.js:418-420 | Entries have no `data` field, so the replay guard holds for every lookup result. |
| `Prefetch.ReplayTasks` | backbone.fetch-cache.js:413-423 | One replay task per record, in record order, with the record's key, type and options. |
| `Dispatch.Dispatchable` | backbone.fetch-cache.js:396-405 | A run takes tasks from the front only while `$.active < 2` at each check, and stops at the first check that fails. |
| `Dispatch.RunWhileBudget` | backbone.fetch-cache.js:396-405 | The loop splits the queue into a prefix that runs and the rest. It runs exactly `Dispatchable` tasks, and it stops only on an empty queue or an exhausted budget. |
| `Dispatch.Dispatcher.constructor` | backbone.fetch-cache.js:394-395 | The queue starts empty. |
| `Dispatch.Dispatcher.StartFetching` | backbone.fetch-cache.js:396-405 | Tasks run in FIFO order and are removed when they run. The rest of the queue is left as it was, and a retry is scheduled iff tasks remain. What ran, the queue and the check count are exactly what the recursion `Drain` gives. |
| `Dispatch.Dispatcher.Push` | backbone.fetch-cache.js:406-409 | `fn` is appended, then a run starts; the queue stays what was pushed and has not yet run, and `$.active` is read once per task run, plus once more when tasks remain (the check that failed). The outcome is `Drain` of the queue with `fn` appended. |
| `Dispatch.Drain` | backbone.fetch-cache.js:396-405 | The recursion of `startFetchingRequests`: nothing is lost or reordered (the old queue is what ran followed by what is left), and the check count never decreases. |
| `Dispatch.DrainRunsDispatchable` | backbone.fetch-cache.js:396-405 | `Drain` runs exactly `Dispatchable` tasks and makes one check per task run, plus one when tasks are left. |
| `Dispatch.PushAll` | backbone.fetch-cache.js:406-409 | A series of `fetchHelper` calls, each appending one task and draining: the old queue followed by the tasks is what ran followed by what is left. |
| `Dispatch.BlockedPushesQueue` | backbone.fetch-cache.js:398-403 | With `$.active >= 2` at every check, a series of pushes runs nothing, queues every task behind the old queue, and costs one check per push. |
| `Dispatch.IdlePushesDrain` | backbone.fetch-cache.js:398-400 | With `$.active < 2` at every check, a non-empty series of pushes runs the old queue and then every task, in order, and leaves nothing queued. |
| `Dispatch.StartedIsPrefixOfPushed` | backbone.fetch-cache.js:394-410 | What has run is always a prefix of what was pushed: FIFO order, each task at most once. |
| `Dispatch.FullBudgetRunsNothing` | backbone.fetch-cache.js:398-403 | With `$.active >= 2` at the first check, nothing runs. |
| `Dispatch.IdleNetworkDrains` | backbone.fetch-cache.js:396-405 | With the budget never exhausted, a run drains the whole queue. |

## Left out

- The UMD wrapper and the local-storage support probe (lines 8-41) are left out. `storageOn` stands for "local storage is supported and enabled".
- The IndexedDB backend (`_indexDBHelper`, `saveToIndexedDB`, `loadFromIndexedDB`, lines 255-346) is not modelled. It is asynchronous browser I/O, and the model always takes the local-storage path.
- `setPrefetchRequests` (lines 348-380) is not modelled: the write of `_prerequests` to its storage slot is I/O. Its quota branch calls `_deleteCacheWithPriority()` with no dictionary, which has no defined behaviour.
- `getPrefetchRequests` (lines 428-448) is reduced to its effect. `EnablePrefetch` receives the already-parsed records, in the order `_.each` visits them.
- `JSON.stringify` and `JSON.parse` are not modelled, and neither is the exception a malformed snapshot raises. The constructor receives the parsed snapshot, and `backend` abstracts `localStorage.setItem`.
- `Engine.FetchCache.SetLocalStorage`: the error code is an integer. A code given by `err.message` as a string, which never equals 22 or 1014, is rethrown like any other.
- `Engine.FetchCache.SetLocalStorage`: an unending quota retry on an empty dictionary is the outcome `Exhausted`, a thrown error. In the source it is unbounded recursion that ends in a stack overflow.
- `$.param` is not modelled. An object-valued `data` option is represented by its serialisation.
- Timers are not modelled: the `cacheexpired`/`cacheprefillexpired` timers, `nextTick`, and the 2000 ms retry of `fetchHelper`. `StartFetching` reports that a retry is due, and the retry is another call of it.
- The jQuery Deferred plumbing (`notify`/`resolve`/`reject`/`abort`) is not modelled. Neither is `setData`: Backbone `parse`/`set`/`reset`/`trigger`, the `beforeSend`, `success` and `prefillSuccess` callbacks, and `selfParameter`. The decision records only what is delivered and whether synchronously.
- The super `fetch` and `sync` are outside this model. The network answer is the parameter `response`, arriving at time `responded`; `Sync` reports the error that escapes, and delegates when there is none.
- A replayed task runs synchronously inside `fetchHelper` in the source. In the model, `PrefetchInitializer` reports which tasks started, and `RunReplay` is what one such task does.
- `prefetchStoreProcessor` and `prefetchRetrieveProcessor` are taken as the identity, their default.
- `Entries.NewEntry`: the clock is read once per write. The source reads it separately for `lastSync`, `expires` and `prefillExpires`.
- Lifetimes are whole seconds. Fractional and non-numeric `expires` options are not modelled.
- `Eviction.Prioritize`: when some entry lacks a numeric `expires`, only "some key of the dictionary" is promised. The comparator is then inconsistent, and the order `Array.prototype.sort` produces is implementation-defined. Ties are likewise broken in an unspecified way.
- `Engine.FetchCache.SetCache`: for a function subject the key written is the corrected one, the function applied to the options. The code as written takes the url branch there (`Keys.CacheKeyAsWritten`): `() => "/w"` with no url gets the key `undefined` and is skipped, where the model writes under `"/w"`. Every other subject is keyed as written (`Keys.AsWrittenAgreesOffFunctions`).
- `Engine.FetchCache.SaveToPrefetch`: for a function subject the record is stored under the corrected key, as for `SetCache`, not under the url-branch key the code computes.
- `Engine.FetchCache.RunReplay`: a fresh instance has no url of its own. Backbone's default `url()` for a model without `urlRoot` would throw; this is not modelled, since stored records normally carry a url.

## Findings

| source | as written | input that shows it | evidently intended | confidence | as-written member | corrected member |
|---|---|---|---|---|---|---|
| backbone.fetch-cache.js:109-122 | `_.isObject` is true of functions, so a function subject takes the object branch and the `_.isFunction(key)` branch is never reached | the function `() => "/widgets"` with no `url` property and no options gets the key `undefined` | a function subject is a lazy key: it is called with the options and its result is the key (`"/widgets"`) | not executed; high: underscore's `_.isObject` returns true for `typeof === 'function'` | `Keys.CacheKeyAsWritten` with `Keys.FunctionSubjectNotCalledAsWritten` | `Keys.CacheKey` with `Keys.FunctionSubjectIsCalled` |

=== FILE: decision.dfy ===
/**
 * The read decision of `Model.prototype.fetch` and
 * `Collection.prototype.fetch` (the two copies are identical in this part):
 * given the entry found under the request's key, the options and the clock,
 * whether to bypass the cache, serve from it, go to the network, or both.
 */
module ReadDecision {
  import opened Types
  import opened Entries

  /** Whether the cached value reaches the caller in the same call stack
      (`async: false`) or on the next tick. */
  datatype Delivery = Synchronous | NextTick

  datatype Decision =
    | Bypass                                              // caching disabled: the super fetch alone
    | ServeOnly(value: Attrs, delivery: Delivery)         // resolve from cache, no request
    | ServeThenNetwork(value: Attrs, delivery: Delivery)  // notify from cache, then request
    | NetworkOnly                                         // request, cache the response

  predicate Serves(d: Decision) {
    d.ServeOnly? || d.ServeThenNetwork?
  }

  /** Whether the underlying fetch is called (by the cache or instead of it). */
  predicate CallsNetwork(d: Decision) {
    !d.ServeOnly?
  }

  /** `opts.cache || opts.prefill` */
  predicate CacheRequested(opts: Options) {
    opts.cache == Some(true) || opts.prefill
  }

  /** `isPrefilling()`: note that it reads the `prefillExpires` OPTION, not
      the entry's field; an unset, `false` or 0 option means "prefill". */
  predicate Prefilling(opts: Options, prefillExpired: bool) {
    opts.prefill && (!TtlTruthy(opts.prefillExpires) || prefillExpired)
  }

  /** `opts.async` defaults to true when it is null or undefined. */
  function DeliveryFor(opts: Options): Delivery {
    if opts.async == Some(false) then Synchronous else NextTick
  }

  /** The decision taken by `fetch(opts)` at time `now`, `data` being
      `getCache(key)` for the request's key. */
  function Decide(enabled: bool, data: Option<Entry>, opts: Options, now: int): (d: Decision)
    ensures d.Bypass? <==> !enabled
    ensures Serves(d) <==>
              && enabled
              && data.Some? && !Expired(data.value, now)
              && CacheRequested(opts)
              && data.value.value.Payload?
    ensures Serves(d) ==> d.value == data.value.value && d.delivery == DeliveryFor(opts)
    ensures enabled ==> (!CallsNetwork(d) <==> Serves(d) && !Prefilling(opts, data.Some? && PrefillExpired(data.value, now)))
  {
    if !enabled then Bypass
    else
      var expired := data.Some? && Expired(data.value, now);
      var prefillExpired := data.Some? && PrefillExpired(data.value, now);
      var attributes := if data.Some? then data.value.value else Falsy;
      if !expired && CacheRequested(opts) && attributes.Payload? then
        if Prefilling(opts, prefillExpired)
        then ServeThenNetwork(attributes, DeliveryFor(opts))
        else ServeOnly(attributes, DeliveryFor(opts))
      else NetworkOnly
  }

  /** Write then read: a `cache: true` response written at `now` is served,
      without a request, to the same options at any time before it expires. */
  lemma WriteThenReadServes(opts: Options, attrs: Attrs, now: int, later: int)
    requires opts.cache == Some(true) && !opts.prefill
    requires attrs.Payload?
    requires 0 <= now <= later
    requires opts.expires.Off? || later < now + TtlSeconds(opts.expires) * 1000
    ensures Decide(true, Some(NewEntry(opts, attrs, now)), opts, later) == ServeOnly(attrs, DeliveryFor(opts))
  {
  }

  /** Once the entry's lifetime has run out, the same read goes to the network. */
  lemma ExpiredEntryIsRefetched(opts: Options, attrs: Attrs, now: int, later: int)
    requires now >= 0
    requires !opts.expires.Off? && TtlSeconds(opts.expires) > 0
    requires later >= now + TtlSeconds(opts.expires) * 1000
    ensures Decide(true, Some(NewEntry(opts, attrs, now)), opts, later) == NetworkOnly
  {
    ExpiryBoundary(opts, attrs, now, later);
  }

  /** Prefill: with no prefill lifetime given, a fresh hit is delivered as a
      progress notification and the request is still made. */
  lemma PrefillServesThenRefreshes(opts: Options, e: Entry, now: int)
    requires opts.prefill && !TtlTruthy(opts.prefillExpires)
    requires !Expired(e, now) && e.value.Payload?
    ensures Decide(true, Some(e), opts, now) == ServeThenNetwork(e.value, DeliveryFor(opts))
  {
  }

  /** A hit at some time is a hit at every earlier time. */
  lemma ServedEarlierToo(enabled: bool, data: Option<Entry>, opts: Options, t1: int, t2: int)
    requires t1 <= t2 && Serves(Decide(enabled, data, opts, t2))
    ensures Serves(Decide(enabled, data, opts, t1))
  {
  }

  /** Without an entry there is nothing to serve, whatever the options. */
  lemma MissGoesToNetwork(opts: Options, now: int)
    ensures Decide(true, None, opts, now) == NetworkOnly
  {
  }
}

=== FILE: dispatch.dfy ===
/**
 * `fetchHelper`: a FIFO queue of replay tasks that runs its head only while
 * fewer than two requests are in flight (`$.active < 2`), and otherwise
 * retries after 2000 ms.
 */
module Dispatch {

  /** The in-flight budget: a task starts only while `$.active < 2`. */
  const Budget: nat := 2

  /** How many tasks one run of `startFetchingRequests` takes from the front
      of `queue`, when `active(c)` is the value `$.active` has at the c-th
      evaluation of `$.active < 2` and the run starts at evaluation `start`. */
  function Dispatchable<T>(queue: seq<T>, active: nat -> nat, start: nat): (n: nat)
    decreases |queue|
    ensures n <= |queue|
    ensures forall c :: start <= c < start + n ==> active(c) < Budget
    ensures n < |queue| ==> active(start + n) >= Budget
  {
    if queue == [] || active(start) >= Budget then 0
    else 1 + Dispatchable(queue[1..], active, start + 1)
  }

  lemma DispatchStep<T>(queue: seq<T>, active: nat -> nat, start: nat)
    requires queue != [] && active(start) < Budget
    ensures Dispatchable(queue, active, start) == 1 + Dispatchable(queue[1..], active, start + 1)
  {
  }

  /** Running the head of the queue keeps the loop's account of what ran. */
  lemma RunOneMore<T>(queue: seq<T>, active: nat -> nat, start: nat, ran: seq<T>, rest: seq<T>, checks: nat)
    requires rest != [] && active(checks) < Budget
    requires queue == ran + rest
    requires |ran| + Dispatchable(rest, active, checks) == Dispatchable(queue, active, start)
    ensures queue == (ran + [rest[0]]) + rest[1..]
    ensures |ran + [rest[0]]| + Dispatchable(rest[1..], active, checks + 1) == Dispatchable(queue, active, start)
  {
    DispatchStep(rest, active, checks);
    Regrouped(ran, [rest[0]], rest[1..]);
    assert rest == [rest[0]] + rest[1..];
  }

  /** The loop of `startFetchingRequests` (written there as a recursion):
      take the head of `queue` while `$.active < 2` at the current check. */
  method RunWhileBudget<T>(queue: seq<T>, active: nat -> nat, start: nat) returns (ran: seq<T>, rest: seq<T>, checks: nat)
    ensures queue == ran + rest
    ensures |ran| == Dispatchable(queue, active, start)
    ensures checks == start + |ran|
    ensures rest != [] ==> active(checks) >= Budget
  {
    rest, checks, ran := queue, start, [];
    while rest != [] && active(checks) < Budget
      invariant queue == ran + rest
      invariant checks == start + |ran|
      invariant |ran| + Dispatchable(rest, active, checks) == Dispatchable(queue, active, start)
      decreases |rest|
    {
      RunOneMore(queue, active, start, ran, rest, checks);
      ran := ran + [rest[0]];
      rest, checks := rest[1..], checks + 1;
    }
  }

  /** Where the queue stands after some runs: the tasks they ran, in
      order, the tasks still queued, and the number of evaluations of
      `$.active < 2` made so far. */
  datatype Progress<T> = Progress(ran: seq<T>, queue: seq<T>, checks: nat)

  /** `startFetchingRequests()` as the source writes it, recursively, on
      `queue` after `checks` evaluations: stop on an empty queue; with the
      budget used up, stop (a retry is scheduled); otherwise run the head and
      recurse. Nothing is lost or reordered. */
  function Drain<T>(queue: seq<T>, active: nat -> nat, checks: nat): (r: Progress<T>)
    decreases |queue|
    ensures queue == r.ran + r.queue
    ensures checks <= r.checks
  {
    if queue == [] then Progress([], [], checks)
    else if active(checks) >= Budget then Progress([], queue, checks + 1)
    else
      var rest := Drain(queue[1..], active, checks + 1);
      Regrouped([queue[0]], rest.ran, rest.queue);
      assert queue == [queue[0]] + queue[1..];
      Progress([queue[0]] + rest.ran, rest.queue, rest.checks)
  }

  /** The recursion runs exactly the `Dispatchable` prefix, and evaluates
      the budget once per task run plus once more when tasks remain. */
  lemma {:induction false} DrainRunsDispatchable<T>(queue: seq<T>, active: nat -> nat, checks: nat)
    ensures var r := Drain(queue, active, checks);
            && |r.ran| == Dispatchable(queue, active, checks)
            && r.checks == checks + |r.ran| + (if r.queue == [] then 0 else 1)
    decreases |queue|
  {
    if queue != [] && active(checks) < Budget {
      DrainRunsDispatchable(queue[1..], active, checks + 1);
    }
  }

  /** `fetchHelper` called on each of `tasks` in turn: append it, then
      run `startFetchingRequests`. Nothing is lost or reordered: what ran
      followed by what is still queued is the old queue followed by the tasks. */
  function PushAll<T>(queue: seq<T>, checks: nat, active: nat -> nat, tasks: seq<T>): (r: Progress<T>)
    decreases |tasks|
    ensures queue + tasks == r.ran + r.queue
    ensures checks <= r.checks
  {
    if tasks == [] then Progress([], queue, checks)
    else
      var before := PushAll(queue, checks, active, tasks[..|tasks| - 1]);
      var last := Drain(before.queue + [tasks[|tasks| - 1]], active, before.checks);
      assert tasks == tasks[..|tasks| - 1] + [tasks[|tasks| - 1]];
      assert queue + tasks == (queue + tasks[..|tasks| - 1]) + [tasks[|tasks| - 1]];
      assert (before.ran + before.queue) + [tasks[|tasks| - 1]] == before.ran + (before.queue + [tasks[|tasks| - 1]]);
      assert before.ran + (last.ran + last.queue) == (before.ran + last.ran) + last.queue;
      Progress(before.ran + last.ran, last.queue, last.checks)
  }

  /** Concatenation regroups freely. */
  lemma Regrouped<T>(a: seq<T>, b: seq<T>, c: seq<T>)
    ensures (a + b) + c == a + (b + c)
  {
  }

  /** Pushing one more task is one more step of the fold: after the pushes
      of `tasks` left the queue at `queueNow`, one more push and run is where
      the pushes of `tasks + [task]` leave it. */
  lemma PushedOneMore<T>(queue: seq<T>, checks: nat, active: nat -> nat, tasks: seq<T>, task: T,
                         ran: seq<T>, queueNow: seq<T>, checksNow: nat,
                         started: seq<T>, queueAfter: seq<T>, checksAfter: nat)
    requires Progress(ran, queueNow, checksNow) == PushAll(queue, checks, active, tasks)
    requires Progress(started, queueAfter, checksAfter) == Drain(queueNow + [task], active, checksNow)
    ensures Progress(ran + started, queueAfter, checksAfter) == PushAll(queue, checks, active, tasks + [task])
  {
    assert (tasks + [task])[..|tasks|] == tasks;
  }

  /** While `$.active` stays at 2 or more, pushing runs nothing: every task
      stays queued, behind the old queue, and each push costs one check. */
  lemma {:induction false} BlockedPushesQueue<T>(queue: seq<T>, checks: nat, active: nat -> nat, tasks: seq<T>)
    ensures (forall c :: checks <= c ==> active(c) >= Budget) ==>
              var r := PushAll(queue, checks, active, tasks);
              r.ran == [] && r.queue == queue + tasks && r.checks == checks + |tasks|
    decreases |tasks|
  {
    if (forall c :: checks <= c ==> active(c) >= Budget) && tasks != [] {
      var init := tasks[..|tasks| - 1];
      var t := tasks[|tasks| - 1];
      BlockedPushesQueue(queue, checks, active, init);
      assert tasks == init + [t];
    }
  }

  /** While `$.active` stays below 2, every push drains the queue: after at
      least one push, everything queued before and every task has run, in
      order, and nothing is left. */
  lemma {:induction false} IdlePushesDrain<T>(queue: seq<T>, checks: nat, active: nat -> nat, tasks: seq<T>)
    ensures (forall c :: checks <= c ==> active(c) < Budget) && tasks != [] ==>
              var r := PushAll(queue, checks, active, tasks);
              r.ran == queue + tasks && r.queue == []
    decreases |tasks|
  {
    if (forall c :: checks <= c ==> active(c) < Budget) && tasks != [] {
      var init := tasks[..|tasks| - 1];
      var t := tasks[|tasks| - 1];
      IdlePushesDrain(queue, checks, active, init);
      var before := PushAll(queue, checks, active, init);
      IdleNetworkDrains(before.queue + [t], active, before.checks);
      DrainRunsDispatchable(before.queue + [t], active, before.checks);
      assert tasks == init + [t];
    }
  }

  /** The queue behind `fetchHelper`. The ghost fields record every task ever
      pushed and every task ever started, so that `Valid` can state that the
      queue is exactly the pushed tasks not yet started, in order. */
  class Dispatcher<T> {
    var queue: seq<T>          // `currentRequests`
    var checks: nat            // evaluations of `$.active < 2` so far
    const active: nat -> nat   // `$.active` at each evaluation, set by the host
    ghost var pushed: seq<T>
    ghost var started: seq<T>

    ghost predicate Valid()
      reads this
    {
      pushed == started + queue
    }

    constructor(active: nat -> nat)
      ensures Valid()
      ensures queue == [] && pushed == [] && started == [] && checks == 0
      ensures this.active == active
    {
      this.active := active;
      queue, checks := [], 0;
      pushed, started := [], [];
    }

    /** `startFetchingRequests()`: while the queue is non-empty and the budget
        allows, remove the head and run it. Returns what was run, in order,
        and whether a retry was scheduled (after 2000 ms) because the budget
        was exhausted. */
    method StartFetching() returns (ran: seq<T>, backoff: bool)
      requires Valid()
      modifies this
      ensures Valid()
      ensures pushed == old(pushed)
      ensures |ran| == Dispatchable(old(queue), active, old(checks))
      ensures old(queue) == ran + queue
      ensures started == old(started) + ran
      ensures backoff <==> queue != []
      ensures checks == old(checks) + |ran| + (if backoff then 1 else 0)
      ensures Progress(ran, queue, checks) == Drain(old(queue), active, old(checks))
    {
      DrainRunsDispatchable(queue, active, checks);
      ghost var r := Drain(queue, active, checks);
      var rest, c;
      ran, rest, c := RunWhileBudget(queue, active, checks);
      assert (started + ran) + rest == started + (ran + rest);
      assert r.ran == (ran + rest)[..|ran|] && r.queue == (ran + rest)[|ran|..];
      backoff := rest != [];
      queue, started := rest, started + ran;
      checks := if backoff then c + 1 else c;
    }

    /** `fetchHelper(fn)`: append `fn`, then start fetching. */
    method Push(task: T) returns (ran: seq<T>, backoff: bool)
      requires Valid()
      modifies this
      ensures Valid()
      ensures pushed == old(pushed) + [task]
      ensures old(queue) + [task] == ran + queue
      ensures started == old(started) + ran
      ensures |ran| == Dispatchable(old(queue) + [task], active, old(checks))
      ensures backoff <==> queue != []
      ensures checks == old(checks) + |ran| + (if backoff then 1 else 0)
      ensures Progress(ran, queue, checks) == Drain(old(queue) + [task], active, old(checks))
    {
      queue := queue + [task];
      pushed := pushed + [task];
      ran, backoff := StartFetching();
    }
  }

  /** Tasks start in the order they were pushed, each at most once: what has
      started is always a prefix of what was pushed. */
  lemma StartedIsPrefixOfPushed<T>(d: Dispatcher<T>)
    requires d.Valid()
    ensures |d.started| <= |d.pushed| && d.started == d.pushed[..|d.started|]
  {
  }

  /** A run never starts a task while the budget is used up; in particular,
      when `$.active` is already 2 or more at the first check, nothing runs. */
  lemma {:induction false} FullBudgetRunsNothing<T>(queue: seq<T>, active: nat -> nat, start: nat)
    requires active(start) >= Budget
    ensures Dispatchable(queue, active, start) == 0
  {
  }

  /** With the budget never exhausted, a run drains the whole queue. */
  lemma {:induction false} IdleNetworkDrains<T>(queue: seq<T>, active: nat -> nat, start: nat)
    requires forall c :: start <= c ==> active(c) < Budget
    ensures Dispatchable(queue, active, start) == |queue|
  {
    if queue != [] {
      IdleNetworkDrains(queue[1..], active, start + 1);
    }
  }
}

=== FILE: engine.dfy ===
/**
 * The cache engine: the in-memory dictionary `_cache`, its persisted mirror
 * `localStorageContent`, the write path (`setCache`, `setLocalStorage` with
 * quota eviction), invalidation (`clearItem`, `sync`), the read path of
 * `fetch`, and the prefetch bookkeeping (`saveToPrefetch`,
 * `_prefetchInitializer`, `enablePrefetch`, `disablePrefetch`).
 */
module Engine {
  import opened Types
  import opened Keys
  import opened Entries
  import opened ReadDecision
  import opened Eviction
  import opened Prefetch
  import opened Dispatch

  /** A mutable dictionary from cache keys to entries. After
      `getLocalStorage` has run, `_cache` and `localStorageContent` are the
      SAME dictionary, so this is a class: aliasing is part of the model. */
  class Dict {
    var entries: map<string, Entry>

    constructor(entries: map<string, Entry>)
      ensures this.entries == entries
    {
      this.entries := entries;
    }
  }

  /** What `localStorage.setItem('backboneCache', JSON.stringify(data))` does
      with a given dictionary: it stores it, or throws an error whose code
      (`err.code || err.number || err.message`) is given. */
  datatype Attempt = Written | Threw(code: int)

  /** 22 and 1014 are the codes browsers use for "quota exceeded". */
  predicate IsQuotaCode(code: int) {
    code == 22 || code == 1014
  }

  /** How a call of `setLocalStorage` ends. */
  datatype SaveStatus =
    | StorageOff          // local storage unsupported or switched off: nothing written
    | Saved               // written, possibly after evictions
    | Rethrown(code: int) // a non-quota error, thrown on to the caller
    | Exhausted           // quota errors until the dictionary was empty; the next
                          // round never ends (unbounded recursion), so the call throws

  predicate Throws(s: SaveStatus) {
    s.Rethrown? || s.Exhausted?
  }

  /** Why `setCache` returned without writing. */
  datatype SkipReason = NoKey | CacheDisabled | NotRequested

  datatype WriteOutcome =
    | Skipped(reason: SkipReason)
    | Stored(key: string, save: SaveStatus, evicted: seq<string>)  // evicted in eviction order

  /** The three early returns of `setCache`, in their order. */
  function SkipReasonFor(k: Key, opts: Options): (r: Option<SkipReason>)
    ensures r.None? <==> KeyTruthy(k) && opts.cache != Some(false) && CacheRequested(opts)
    ensures opts.cache == Some(false) ==> r.Some?
    ensures r == Some(NoKey) <==> !KeyTruthy(k)
  {
    if !KeyTruthy(k) then Some(NoKey)
    else if opts.cache == Some(false) then Some(CacheDisabled)
    else if !CacheRequested(opts) then Some(NotRequested)
    else None
  }

  /** The key `setCache(instance, opts)` writes under: `opts || {}` is used. */
  function WriteKey(instance: Subject, opts: Option<Options>): Key {
    CacheKey(instance, Some(OrNoOptions(opts)))
  }

  /** The keys `sync` clears for a write: the model's own key with the sync
      options, then its collection's key with no options. */
  function InvalidationKeys(model: Entity, options: Option<Options>): (keys: seq<Key>)
    ensures |keys| == if model.collection.Some? then 2 else 1
    ensures keys[0] == CacheKey(Instance(model), options)
    ensures model.collection.Some? ==> keys[1] == CacheKey(Instance(model.collection.value), None)
  {
    [CacheKey(Instance(model), options)]
    + (if model.collection.Some? then [CacheKey(Instance(model.collection.value), None)] else [])
  }

  function KeyTexts(keys: seq<Key>): (names: seq<string>)
    ensures |names| == |keys|
    ensures forall i :: 0 <= i < |keys| ==> names[i] == KeyText(keys[i])
  {
    seq(|keys|, i requires 0 <= i < |keys| => KeyText(keys[i]))
  }

  /** The names in a sequence of removals. */
  function Elems(names: seq<string>): (r: set<string>)
    ensures forall x :: x in r <==> x in names
  {
    set x | x in names
  }

  /** Removing the names removed so far and then one more is removing them all. */
  lemma RemovedOneMore(m: map<string, Entry>, removed: seq<string>, name: string)
    ensures m - Elems(removed) - {name} == m - Elems(removed + [name])
  {
    assert Elems(removed + [name]) == Elems(removed) + {name};
  }

  /** A save that failed with a quota code. */
  predicate QuotaError(a: Attempt) {
    a.Threw? && IsQuotaCode(a.code)
  }

  /** Round `i` of the eviction loop of `setLocalStorage`, started on `m`
      with the keys `order` evicted in turn: the save of `m` without the
      first `i` of them failed with a quota code, and key `i` is the one
      `_prioritize` picks from what was left. */
  ghost predicate QuotaRound(backend: map<string, Entry> -> Attempt, m: map<string, Entry>, order: seq<string>, i: int)
    requires 0 <= i < |order|
  {
    var before := m - Elems(order[..i]);
    QuotaError(backend(before)) && IsPriorityChoice(before, order[i])
  }

  /** One more quota round after the recorded ones keeps the record valid. */
  lemma {:induction false} QuotaRoundsExtend(backend: map<string, Entry> -> Attempt, m: map<string, Entry>, order: seq<string>, key: string)
    requires forall i :: 0 <= i < |order| ==> QuotaRound(backend, m, order, i)
    requires QuotaError(backend(m - Elems(order))) && IsPriorityChoice(m - Elems(order), key)
    ensures forall i :: 0 <= i < |order + [key]| ==> QuotaRound(backend, m, order + [key], i)
  {
    forall i | 0 <= i < |order + [key]|
      ensures QuotaRound(backend, m, order + [key], i)
    {
      if i < |order| {
        assert (order + [key])[..i] == order[..i];
        assert QuotaRound(backend, m, order, i);
      } else {
        assert (order + [key])[..i] == order;
      }
    }
  }

  /** What one call of `setLocalStorage` on the dictionary `m` does, with
      storage on or off and the browser answering `backend`: it ends in
      `status`, having evicted the keys `evicted` in that order, leaving the
      dictionary `after` and taking the persisted slot from `storedBefore`
      to `storedAfter`. Keys leave only after quota errors, each the one
      `_prioritize` picks; a save that does not fail with a quota code ends
      the retries; only a successful save touches the slot. */
  ghost predicate SaveEffect(storageOn: bool, backend: map<string, Entry> -> Attempt, m: map<string, Entry>,
                             status: SaveStatus, evicted: seq<string>, after: map<string, Entry>,
                             storedBefore: map<string, Entry>, storedAfter: map<string, Entry>)
  {
    && Elems(evicted) <= m.Keys
    && after == m - Elems(evicted)
    && (status == StorageOff <==> !storageOn)
    && (!storageOn ==> evicted == [])
    && (status == Saved ==> storedAfter == after && backend(after) == Written)
    && (status != Saved ==> storedAfter == storedBefore)
    && (status.Rethrown? ==> backend(after) == Threw(status.code) && !IsQuotaCode(status.code))
    && (status == Exhausted ==> after == map[] && QuotaError(backend(map[])))
    && (forall i :: 0 <= i < |evicted| ==> QuotaRound(backend, m, evicted, i))
    && (storageOn && backend(m) == Written ==> status == Saved && evicted == [])
    && (storageOn && backend(m).Threw? && !IsQuotaCode(backend(m).code) ==>
          status == Rethrown(backend(m).code) && evicted == [])
    && (AllRanked(m) ==> forall x, y :: x in evicted && y in after ==> m[x].expires.time <= m[y].expires.time)
  }

  /** A fresh `new Backbone[type]()`: no custom key, no url of its own, no collection. */
  function FreshInstance(kind: Kind): Entity {
    Entity(kind, None, Missing, None)
  }

  /** `_deleteCacheWithPriority(data)` up to its recursive `setLocalStorage`
      call: remove the key `_prioritize` picks. For an empty dictionary the
      pick is `undefined`, and deleting the property "undefined" changes nothing. */
  method DeleteWithPriority(d: Dict) returns (key: Key)
    modifies d
    ensures key.Undefined? <==> old(d.entries) == map[]
    ensures key.Str? ==> IsPriorityChoice(old(d.entries), key.s)
    ensures d.entries == old(d.entries) - {KeyText(key)}
  {
    key := Prioritize(d.entries);
    d.entries := d.entries - {KeyText(key)};
  }

  class FetchCache {
    var enabled: bool                             // `Backbone.fetchCache.enabled`
    var prefetch: bool                            // `Backbone.fetchCache.prefetch`
    var cache: Dict                               // `Backbone.fetchCache._cache`
    var content: Dict                             // `localStorageContent`
    var stored: map<string, Entry>                // the 'backboneCache' slot of local storage
    var prerequests: map<string, PrefetchRecord>  // `Backbone.fetchCache._prerequests`
    const storageOn: bool                         // `supportLocalStorage && Backbone.fetchCache.localStorage`
    const backend: map<string, Entry> -> Attempt  // the browser's answer to each write
    const dispatcher: Dispatcher<Task>            // the queue behind `fetchHelper`

    ghost predicate Valid()
      reads this, dispatcher
    {
      dispatcher.Valid()
    }

    /** The two dictionaries are one object exactly when storage is on, as
        `getLocalStorage` leaves them. */
    predicate Coherent()
      reads this
    {
      storageOn <==> cache == content
    }

    /** Module set-up followed by `getLocalStorage()`: with storage on, both
        dictionaries become the one parsed from the stored snapshot. */
    constructor(storageOn: bool, backend: map<string, Entry> -> Attempt, snapshot: map<string, Entry>, active: nat -> nat)
      ensures Valid() && fresh(dispatcher) && dispatcher.queue == [] && dispatcher.pushed == []
      ensures Coherent()
      ensures enabled && !prefetch && prerequests == map[]
      ensures this.storageOn == storageOn && this.backend == backend
      ensures fresh(cache) && fresh(content)
      ensures storageOn ==> cache == content && cache.entries == snapshot && stored == snapshot
      ensures !storageOn ==> cache != content && cache.entries == map[] && content.entries == map[]
    {
      this.storageOn := storageOn;
      this.backend := backend;
      enabled, prefetch, prerequests := true, false, map[];
      dispatcher := new Dispatcher(active);
      if storageOn {
        var primed := new Dict(snapshot);
        cache, content, stored := primed, primed, snapshot;
      } else {
        cache := new Dict(map[]);
        content := new Dict(map[]);
        stored := map[];
      }
    }

    /** `getCache(subject, opts)`: the entry under the resolved key, if any. */
    function GetCache(subject: Subject, opts: Option<Options>): (r: Option<Entry>)
      reads this, cache
      ensures r.Some? <==> LookupKey(subject, opts) in cache.entries
      ensures r.Some? ==> r.value == cache.entries[LookupKey(subject, opts)]
    {
      var k := LookupKey(subject, opts);
      if k in cache.entries then Some(cache.entries[k]) else None
    }

    /** `getLastSync(subject, opts)`: `getCache(subject) && getCache(subject).lastSync`.
        The options are not passed on, so a model's key is derived without them. */
    function GetLastSync(subject: Subject, opts: Option<Options>): (r: Option<int>)
      reads this, cache
      ensures r.Some? <==> LookupKey(subject, None) in cache.entries
      ensures r.Some? ==> r.value == cache.entries[LookupKey(subject, None)].lastSync
    {
      var e := GetCache(subject, None);
      if e.Some? then Some(e.value.lastSync) else None
    }

    /** `setLocalStorage(d)`: write the dictionary; on a quota error delete
        the entry `_prioritize` picks and try again; rethrow any other error.
        `evicted` lists the deleted keys in the order of deletion. */
    method SetLocalStorage(d: Dict) returns (status: SaveStatus, evicted: seq<string>)
      modifies d, this`stored
      ensures SaveEffect(storageOn, backend, old(d.entries), status, evicted, d.entries, old(stored), stored)
    {
      if !storageOn {
        return StorageOff, [];
      }
      ghost var m0 := d.entries;
      evicted := [];
      var attempt := backend(d.entries);
      while QuotaError(attempt) && d.entries != map[]
        invariant Elems(evicted) <= m0.Keys
        invariant d.entries == m0 - Elems(evicted)
        invariant attempt == backend(d.entries)
        invariant stored == old(stored)
        invariant !QuotaError(backend(m0)) ==> evicted == []
        invariant forall i :: 0 <= i < |evicted| ==> QuotaRound(backend, m0, evicted, i)
        invariant AllRanked(m0) ==>
                    forall x, y :: x in evicted && y in d.entries ==> m0[x].expires.time <= m0[y].expires.time
        decreases d.entries.Keys
      {
        var key := DeleteWithPriority(d);
        RemovedOneMore(m0, evicted, key.s);
        QuotaRoundsExtend(backend, m0, evicted, key.s);
        evicted := evicted + [key.s];
        attempt := backend(d.entries);
      }
      if attempt.Written? {
        stored := d.entries;
        status := Saved;
      } else if IsQuotaCode(attempt.code) {
        status := Exhausted;
      } else {
        status := Rethrown(attempt.code);
      }
    }

    /** `clearItem(subject, opts)`: delete the key from `_cache`; if
        `localStorageContent` still holds it, delete it there too and persist.
        When the two dictionaries are one (storage on), the first delete
        already removed it, so the removal is never persisted. */
    method ClearItem(subject: Subject, opts: Option<Options>) returns (save: Option<SaveStatus>, evicted: seq<string>)
      modifies cache, content, this`stored
      ensures var k := LookupKey(subject, opts);
              && cache.entries == old(cache.entries) - {k}
              && k !in cache.entries && k !in content.entries
      ensures save.Some? <==> cache != content && LookupKey(subject, opts) in old(content.entries)
      ensures save.None? ==> content.entries == old(content.entries) - {LookupKey(subject, opts)}
                             && stored == old(stored) && evicted == []
      ensures save.Some? ==> SaveEffect(storageOn, backend, old(content.entries) - {LookupKey(subject, opts)},
                                        save.value, evicted, content.entries, old(stored), stored)
    {
      var k := LookupKey(subject, opts);
      cache.entries := cache.entries - {k};
      if k in content.entries {
        var status;
        content.entries := content.entries - {k};
        status, evicted := SetLocalStorage(content);
        save := Some(status);
      } else {
        save, evicted := None, [];
      }
    }

    /** `saveToPrefetch(instance, opts)`: record how to replay this request,
        under the request's cache key. Writing `_prerequests` out to storage
        is not part of this model. */
    method SaveToPrefetch(instance: Subject, opts: Options, now: int)
      modifies this`prerequests
      ensures prerequests == old(prerequests)[RecordKey(instance, opts) := RecordFor(instance, opts, now)]
    {
      prerequests := prerequests[RecordKey(instance, opts) := RecordFor(instance, opts, now)];
    }

    /** The write at the heart of `setCache`: put the entry into `_cache`
        and into `localStorageContent`, then persist the latter. */
    method Store(name: string, e: Entry) returns (status: SaveStatus, evicted: seq<string>)
      modifies cache, content, this`stored
      ensures SaveEffect(storageOn, backend, old(content.entries)[name := e], status, evicted, content.entries, old(stored), stored)
      ensures cache != content ==> cache.entries == old(cache.entries)[name := e]
      ensures name !in evicted ==> name in cache.entries && cache.entries[name] == e
    {
      ghost var before := content.entries;
      cache.entries := cache.entries[name := e];
      content.entries := content.entries[name := e];
      assert content.entries == before[name := e];
      ghost var mirrored := cache.entries;
      status, evicted := SetLocalStorage(content);
      assert cache != content ==> cache.entries == mirrored;
    }

    /** The state change of a `setCache(instance, opts, attrs)` at time `now`
        that reported `outcome`. A guard returns iff `SkipReasonFor` gives a
        reason, and then nothing changes. Otherwise the new entry goes under
        the write key into both dictionaries, `localStorageContent` is
        persisted as `SaveEffect` says (so the only other keys that leave
        are quota evictions), and the prefetch record is saved iff
        prefetching is on and persisting did not throw. */
    twostate predicate SetCacheEffect(instance: Subject, opts: Option<Options>, attrs: Attrs, now: int, outcome: WriteOutcome)
      reads this, cache, content
    {
      var o := OrNoOptions(opts);
      var k := WriteKey(instance, opts);
      var e := NewEntry(o, attrs, now);
      && (outcome.Skipped? <==> SkipReasonFor(k, o).Some?)
      && (outcome.Skipped? ==>
            && outcome.reason == SkipReasonFor(k, o).value
            && cache.entries == old(cache.entries) && content.entries == old(content.entries)
            && stored == old(stored) && prerequests == old(prerequests))
      && (outcome.Stored? ==>
            && outcome.key == KeyText(k)
            && SaveEffect(storageOn, backend, old(content.entries)[outcome.key := e],
                          outcome.save, outcome.evicted, content.entries, old(stored), stored)
            && (cache != content ==> cache.entries == old(cache.entries)[outcome.key := e])
            && (outcome.key !in outcome.evicted ==> outcome.key in cache.entries && cache.entries[outcome.key] == e)
            && (prefetch && !Throws(outcome.save) ==>
                  prerequests == old(prerequests)[outcome.key := RecordFor(instance, o, now)])
            && (!(prefetch && !Throws(outcome.save)) ==> prerequests == old(prerequests)))
    }

    /** `setCache(instance, opts, attrs)` at time `now`: unless one of the
        three guards returns early, write the new entry into both dictionaries
        under the key, persist `localStorageContent`, and, when prefetching is
        on and persisting did not throw, save a prefetch record. */
    method SetCache(instance: Subject, opts: Option<Options>, attrs: Attrs, now: int) returns (outcome: WriteOutcome)
      modifies cache, content, this`stored, this`prerequests
      ensures SetCacheEffect(instance, opts, attrs, now, outcome)
    {
      var o := OrNoOptions(opts);
      var k := CacheKey(instance, Some(o));
      var skip := SkipReasonFor(k, o);
      if skip.Some? {
        return Skipped(skip.value);
      }
      var status, evicted := Store(k.s, NewEntry(o, attrs, now));
      assert RecordKey(instance, o) == k.s;
      outcome := Stored(k.s, status, evicted);
      if prefetch && !Throws(status) {
        SaveToPrefetch(instance, o, now);
      }
    }

    /** `Model.prototype.fetch(opts)` and `Collection.prototype.fetch(opts)`,
        called at time `now`. The read decision is taken on the entry under
        the request's key; when the network is called through the cache and
        answers with `response` at time `responded`, the `done` handler
        writes it with `setCache`, stamped with that time (a failed request,
        `None`, writes nothing). */
    method Fetch(self: Entity, opts: Option<Options>, now: int, response: Option<Attrs>, responded: int)
      returns (d: Decision, write: Option<WriteOutcome>)
      modifies cache, content, this`stored, this`prerequests
      ensures d == Decide(enabled, old(GetCache(Instance(self), Some(OrNoOptions(opts)))), OrNoOptions(opts), now)
      ensures write.Some? <==> enabled && CallsNetwork(d) && response.Some?
      ensures write.None? ==>
                unchanged(cache) && unchanged(content) && stored == old(stored) && prerequests == old(prerequests)
      ensures write.Some? ==> SetCacheEffect(Instance(self), Some(OrNoOptions(opts)), response.value, responded, write.value)
      ensures write.Some? && write.value.Stored? ==> write.value.key == LookupKey(Instance(self), Some(OrNoOptions(opts)))
      ensures write.Some? && write.value.Stored? && write.value.key !in write.value.evicted ==>
                GetCache(Instance(self), Some(OrNoOptions(opts))) == Some(NewEntry(OrNoOptions(opts), response.value, responded))
      ensures var o := OrNoOptions(opts);
              && write.Some? && write.value.Stored? && write.value.key !in write.value.evicted
              && o.cache == Some(true) && !o.prefill && response.value.Payload?
              && 0 <= responded && (o.expires.Off? || TtlSeconds(o.expires) > 0)
              ==> Decide(enabled, GetCache(Instance(self), Some(o)), o, responded) == ServeOnly(response.value, DeliveryFor(o))
    {
      var o := OrNoOptions(opts);
      if !enabled {
        return Bypass, None;
      }
      var key := CacheKey(Instance(self), Some(o));
      var data := GetCache(Literal(key), None);
      d := Decide(enabled, data, o, now);
      if CallsNetwork(d) && response.Some? {
        var outcome := SetCache(Instance(self), Some(o), response.value, responded);
        write := Some(outcome);
        if outcome.Stored? && outcome.key !in outcome.evicted && o.cache == Some(true) && !o.prefill
           && response.value.Payload? && 0 <= responded && (o.expires.Off? || TtlSeconds(o.expires) > 0) {
          WriteThenReadServes(o, response.value, responded, responded);
        }
      } else {
        write := None;
      }
    }

    /** `Model.prototype.sync(verb, model, options)`: a read, or any call
        while caching is disabled, goes straight to the underlying sync. Any
        other verb first clears the model's key and its collection's key,
        in that order. An error thrown while persisting a removal escapes
        (`thrown`), so the remaining keys are not cleared and the sync is not
        delegated; the sync is delegated exactly when no error escaped. Only
        a `clearItem` whose dictionaries are distinct persists anything, so
        in the state the set-up creates nothing escapes and every key is cleared. */
    method Sync(verb: string, model: Entity, options: Option<Options>) returns (cleared: seq<string>, thrown: Option<SaveStatus>)
      modifies cache, content, this`stored
      ensures thrown.Some? ==> Throws(thrown.value)
      ensures verb == "read" || !enabled ==>
                cleared == [] && thrown.None? && unchanged(cache) && unchanged(content) && stored == old(stored)
      ensures verb != "read" && enabled ==>
                && 0 < |cleared| <= |InvalidationKeys(model, options)|
                && cleared == KeyTexts(InvalidationKeys(model, options))[..|cleared|]
                && (thrown.None? ==> cleared == KeyTexts(InvalidationKeys(model, options)))
                && cache.entries == old(cache.entries) - Elems(cleared)
      ensures Coherent() ==> thrown.None?
      ensures Coherent() ==> stored == old(stored) && content.entries == old(content.entries) - Elems(cleared)
    {
      if verb == "read" || !enabled {
        return [], None;
      }
      var keys := InvalidationKeys(model, options);
      cleared := [];
      var i := 0;
      while i < |keys|
        invariant 0 <= i <= |keys|
        invariant cleared == KeyTexts(keys)[..i]
        invariant cache.entries == old(cache.entries) - Elems(cleared)
        invariant Coherent() ==> stored == old(stored) && content.entries == old(content.entries) - Elems(cleared)
      {
        var save, evicted := ClearItem(Literal(keys[i]), None);
        RemovedOneMore(old(cache.entries), cleared, KeyText(keys[i]));
        RemovedOneMore(old(content.entries), cleared, KeyText(keys[i]));
        cleared := cleared + [KeyText(keys[i])];
        assert cleared == KeyTexts(keys)[..i + 1];
        if save.Some? && Throws(save.value) {
          return cleared, save;
        }
        i := i + 1;
      }
      assert KeyTexts(keys)[..i] == KeyTexts(keys);
      thrown := None;
    }

    /** One replay task queued by `_prefetchInitializer`, run at time `now`:
        look the recorded key up and evaluate the guard, which always lets
        the replay through; then fetch a fresh instance of the recorded kind
        with the recorded options. */
    method RunReplay(task: Task, now: int, response: Option<Attrs>, responded: int) returns (d: Decision, write: Option<WriteOutcome>)
      modifies cache, content, this`stored, this`prerequests
      ensures ReplayFetches(old(GetCache(Literal(Str(task.key)), None)), now)
      ensures d == Decide(enabled, old(GetCache(Instance(FreshInstance(task.kind)), Some(task.opts))), task.opts, now)
      ensures write.Some? <==> enabled && CallsNetwork(d) && response.Some?
      ensures write.None? ==>
                unchanged(cache) && unchanged(content) && stored == old(stored) && prerequests == old(prerequests)
      ensures write.Some? ==> SetCacheEffect(Instance(FreshInstance(task.kind)), Some(task.opts), response.value, responded, write.value)
    {
      var possible := GetCache(Literal(Str(task.key)), None);
      ReplayAlwaysFetches(possible, now);
      d, write := Fetch(FreshInstance(task.kind), Some(task.opts), now, response, responded);
    }

    /** `_prefetchInitializer(requests)`: for each stored record, in order,
        put it back into `_prerequests` and queue its replay through
        `fetchHelper`; afterwards `_prerequests` is reset to `{}`. Returns the
        tasks the dispatcher started during the calls. */
    method PrefetchInitializer(requests: seq<(string, PrefetchRecord)>) returns (ran: seq<Task>)
      requires Valid()
      modifies this`prerequests, dispatcher
      ensures Valid()
      ensures prerequests == map[]
      ensures dispatcher.pushed == old(dispatcher.pushed) + ReplayTasks(requests)
      ensures dispatcher.started == old(dispatcher.started) + ran
      ensures Progress(ran, dispatcher.queue, dispatcher.checks)
              == PushAll(old(dispatcher.queue), old(dispatcher.checks), dispatcher.active, ReplayTasks(requests))
      ensures (forall c :: old(dispatcher.checks) <= c ==> dispatcher.active(c) >= Budget) ==>
                ran == [] && dispatcher.queue == old(dispatcher.queue) + ReplayTasks(requests)
      ensures (forall c :: old(dispatcher.checks) <= c ==> dispatcher.active(c) < Budget) && requests != [] ==>
                ran == old(dispatcher.queue) + ReplayTasks(requests) && dispatcher.queue == []
    {
      ran := [];
      ghost var queue0, checks0 := dispatcher.queue, dispatcher.checks;
      ghost var done: seq<Task> := [];
      for i := 0 to |requests|
        invariant dispatcher.Valid()
        invariant done == ReplayTasks(requests[..i])
        invariant dispatcher.pushed == old(dispatcher.pushed) + done
        invariant dispatcher.started == old(dispatcher.started) + ran
        invariant Progress(ran, dispatcher.queue, dispatcher.checks) == PushAll(queue0, checks0, dispatcher.active, done)
      {
        var (key, record) := requests[i];
        prerequests := prerequests[key := record];
        var task := Replay(key, record.kind, record.opts);
        ReplayTasksStep(requests, i);
        ghost var queueNow, checksNow := dispatcher.queue, dispatcher.checks;
        var started, _ := dispatcher.Push(task);
        PushedOneMore(queue0, checks0, dispatcher.active, done, task, ran, queueNow, checksNow,
                      started, dispatcher.queue, dispatcher.checks);
        Regrouped(old(dispatcher.pushed), done, [task]);
        Regrouped(old(dispatcher.started), ran, started);
        ran, done := ran + started, done + [task];
      }
      assert requests[..|requests|] == requests;
      BlockedPushesQueue(queue0, checks0, dispatcher.active, done);
      IdlePushesDrain(queue0, checks0, dispatcher.active, done);
      prerequests := map[];
    }

    /** `enablePrefetch()`: switch prefetching on and load the stored
        records (`requests`, as parsed from the 'backboneCachePrefetch' slot);
        nothing is loaded while local storage is unavailable. */
    method EnablePrefetch(requests: seq<(string, PrefetchRecord)>) returns (ran: seq<Task>)
      requires Valid()
      modifies this`prefetch, this`prerequests, dispatcher
      ensures Valid() && prefetch
      ensures storageOn ==>
                && prerequests == map[]
                && dispatcher.pushed == old(dispatcher.pushed) + ReplayTasks(requests)
                && dispatcher.started == old(dispatcher.started) + ran
                && Progress(ran, dispatcher.queue, dispatcher.checks)
                   == PushAll(old(dispatcher.queue), old(dispatcher.checks), dispatcher.active, ReplayTasks(requests))
                && ((forall c :: old(dispatcher.checks) <= c ==> dispatcher.active(c) >= Budget) ==>
                      ran == [] && dispatcher.queue == old(dispatcher.queue) + ReplayTasks(requests))
                && ((forall c :: old(dispatcher.checks) <= c ==> dispatcher.active(c) < Budget) && requests != [] ==>
                      ran == old(dispatcher.queue) + ReplayTasks(requests) && dispatcher.queue == [])
      ensures !storageOn ==> ran == [] && prerequests == old(prerequests) && unchanged(dispatcher)
    {
      prefetch := true;
      if storageOn {
        ran := PrefetchInitializer(requests);
      } else {
        ran := [];
      }
    }

    /** `disablePrefetch()` */
    method DisablePrefetch()
      modifies this`prefetch
      ensures !prefetch
    {
      prefetch := false;
    }
  }
}

=== FILE: entries.dfy ===
/**
 * Cache entries: what `setCache` stores under a key, and when an entry counts
 * as expired for plain reads and for prefill.
 */
module Entries {
  import opened Types

  /** `expires` / `prefillExpires` of an entry: `false`, or a time in milliseconds. */
  datatype Expiry = Never | At(time: int)

  /** One cached response. The two timer handles `onExpire` and
      `onPrefillExpire` are always `undefined` (they hold the result of an
      immediately invoked function that returns nothing) and are left out. */
  datatype Entry = Entry(expires: Expiry, lastSync: int, prefillExpires: Expiry, value: Attrs)

  /** `5 * 60`: the lifetime in seconds when none (or 0) is given. */
  const DefaultTtlSeconds: int := 300

  /** `opts.expires || 5 * 60` */
  function TtlSeconds(ttl: Ttl): int {
    if TtlTruthy(ttl) then ttl.n else DefaultTtlSeconds
  }

  /** `opts.expires !== false ? now + (opts.expires || 300) * 1000 : false` */
  function ExpiryFor(ttl: Ttl, now: int): (x: Expiry)
    ensures x.Never? <==> ttl.Off?
    ensures ttl.Unset? ==> x == At(now + 300000)
    ensures ttl.Seconds? && ttl.n != 0 ==> x == At(now + ttl.n * 1000)
    ensures ttl.Seconds? && ttl.n == 0 ==> x == At(now + 300000)
  {
    if ttl.Off? then Never else At(now + TtlSeconds(ttl) * 1000)
  }

  /** The entry `setCache(instance, opts, attrs)` builds at time `now`. */
  function NewEntry(opts: Options, attrs: Attrs, now: int): (e: Entry)
    ensures e.value == attrs
    ensures e.expires.Never? <==> opts.expires.Off?
    ensures e.prefillExpires.Never? <==> opts.prefillExpires.Off?
    ensures e.expires == ExpiryFor(opts.expires, now) && e.prefillExpires == ExpiryFor(opts.prefillExpires, now)
    ensures opts.lastSync.Some? && opts.lastSync.value != 0 ==> e.lastSync == opts.lastSync.value
    ensures !(opts.lastSync.Some? && opts.lastSync.value != 0) ==> e.lastSync == now
  {
    Entry(
      ExpiryFor(opts.expires, now),
      if opts.lastSync.Some? && opts.lastSync.value != 0 then opts.lastSync.value else now,
      ExpiryFor(opts.prefillExpires, now),
      attrs)
  }

  /** `x && x <= now`: `false` and the number 0 are falsy and never lapse. */
  predicate Lapsed(x: Expiry, now: int) {
    x.At? && x.time != 0 && x.time <= now
  }

  predicate Expired(e: Entry, now: int) {
    Lapsed(e.expires, now)
  }

  predicate PrefillExpired(e: Entry, now: int) {
    Lapsed(e.prefillExpires, now)
  }

  /** An entry written with `expires: false` never expires. */
  lemma NeverExpires(opts: Options, attrs: Attrs, now: int, later: int)
    requires opts.expires.Off?
    ensures !Expired(NewEntry(opts, attrs, now), later)
  {
  }

  /** The expiry boundary: an entry written at `now` (a clock reading, so not
      negative) with a positive lifetime of `s` seconds is expired exactly
      from `now + s * 1000` on; the comparison is `<=`, so it is already
      expired at that instant. */
  lemma ExpiryBoundary(opts: Options, attrs: Attrs, now: int, later: int)
    requires now >= 0
    requires !opts.expires.Off? && TtlSeconds(opts.expires) > 0
    ensures Expired(NewEntry(opts, attrs, now), later) <==> later >= now + TtlSeconds(opts.expires) * 1000
  {
  }

  /** Staleness is monotone in time: once expired, an entry stays expired. */
  lemma ExpiredStaysExpired(e: Entry, t1: int, t2: int)
    requires t1 <= t2 && Expired(e, t1)
    ensures Expired(e, t2)
  {
  }
}

=== FILE: eviction.dfy ===
/**
 * Priority eviction: `priorityFn` and `_prioritize`, which pick the entry to
 * drop when local storage reports that it is full.
 */
module Eviction {
  import opened Types
  import opened Entries

  /** An entry whose `expires` is a truthy number takes part in comparisons. */
  predicate Ranked(e: Entry) {
    e.expires.At? && e.expires.time != 0
  }

  ghost predicate AllRanked(data: map<string, Entry>) {
    forall k :: k in data ==> Ranked(data[k])
  }

  /** `priorityFn(a, b)` as `Array.prototype.sort` consumes it: the
      difference of the two `expires`; when either side lacks a truthy
      `expires` it returns the entry object, which converts to NaN and is
      read by the sort as 0 (equal). */
  function Priority(a: Entry, b: Entry): (c: int)
    ensures Ranked(a) && Ranked(b) ==> (c < 0 <==> a.expires.time < b.expires.time)
    ensures Ranked(a) && Ranked(b) ==> (c == 0 <==> a.expires.time == b.expires.time)
    ensures !(Ranked(a) && Ranked(b)) ==> c == 0
  {
    if !Ranked(a) || !Ranked(b) then 0 else a.expires.time - b.expires.time
  }

  /** What `_prioritize` may answer for a non-empty dictionary: one of its
      keys, and when every entry is ranked, one whose `expires` is smallest.
      With unranked entries the comparator is not consistent, the order the
      sort produces is implementation-defined, and any key may come first. */
  ghost predicate IsPriorityChoice(data: map<string, Entry>, k: string) {
    && k in data
    && (AllRanked(data) ==> forall j :: j in data ==> data[k].expires.time <= data[j].expires.time)
  }

  /** `_prioritize(data)`: the key of the first value of
      `_.values(data).sort(priorityFn)`. An empty dictionary gives
      `_.keys(data)[-1]`, that is `undefined`. */
  method Prioritize(data: map<string, Entry>) returns (key: Key)
    ensures key.Undefined? <==> data == map[]
    ensures key.Str? ==> IsPriorityChoice(data, key.s)
  {
    if data == map[] {
      return Undefined;
    }
    var best :| best in data;
    var rest := data.Keys - {best};
    while rest != {}
      invariant rest <= data.Keys
      invariant best in data
      invariant AllRanked(data) ==>
                  forall j :: j in data && j !in rest ==> data[best].expires.time <= data[j].expires.time
      decreases rest
    {
      var x :| x in rest;
      if Priority(data[x], data[best]) < 0 {
        best := x;
      }
      rest := rest - {x};
    }
    key := Str(best);
  }

  /** An entry that never expires is not protected from eviction: when it is
      the only entry, it is the one `_prioritize` picks. */
  lemma UnexpiringEntryIsEvictable(k: string, e: Entry)
    requires e.expires.Never?
    ensures forall c :: IsPriorityChoice(map[k := e], c) <==> c == k
  {
  }
}

=== FILE: keys.dfy ===
/**
 * Cache-key derivation (`getCacheKey`) and the key resolution that
 * `getCache` and `clearItem` perform on their first argument.
 */
module Keys {
  import opened Types

  /** The url part of a key: a truthy `opts.url` wins over the subject's own url. */
  function BaseUrl(url: UrlProp, opts: Option<Options>): Key {
    if UrlOptionTruthy(opts) then Str(opts.value.url.value) else ResolveUrl(url)
  }

  /** `key + '?' + data` when `opts.data` is truthy, the key itself otherwise. */
  function WithQuery(base: Key, opts: Option<Options>): Key {
    if opts.Some? && QueryTruthy(opts.value.data)
    then Str(KeyText(base) + "?" + QueryText(opts.value.data))
    else base
  }

  /** `getCacheKey(subject, opts)` with the function branch reachable: a
      custom `getCacheKey` is returned verbatim, a function subject is called
      with the options, and otherwise the url (option first) gets the query
      suffix. */
  function CacheKey(subject: Subject, opts: Option<Options>): (k: Key)
    ensures subject.Literal? && !(opts.Some? && QueryTruthy(opts.value.data)) ==> k == subject.key
    ensures subject.Instance? && subject.entity.customKey.None? && !UrlOptionTruthy(opts)
            && !(opts.Some? && QueryTruthy(opts.value.data))
            ==> k == ResolveUrl(subject.entity.url)
  {
    match subject
    case Instance(e) =>
      if e.customKey.Some? then e.customKey.value(opts) else WithQuery(BaseUrl(e.url, opts), opts)
    case Thunk(call, _) => call(opts)
    case Literal(key) => WithQuery(key, opts)
  }

  /** `getCacheKey` exactly as written. `_.isObject` is true of functions, so a
      function subject takes the first branch: it has no `getCacheKey` of its
      own, and its key is its `url` property (normally absent) or `opts.url`;
      the `_.isFunction(key)` branch is never reached. */
  function CacheKeyAsWritten(subject: Subject, opts: Option<Options>): (k: Key)
    ensures subject.Thunk? ==> k == WithQuery(BaseUrl(subject.url, opts), opts)
  {
    match subject
    case Instance(e) =>
      if e.customKey.Some? then e.customKey.value(opts) else WithQuery(BaseUrl(e.url, opts), opts)
    case Thunk(_, url) => WithQuery(BaseUrl(url, opts), opts)
    case Literal(key) => WithQuery(key, opts)
  }

  /** The property `getCache(subject, opts)` and `clearItem(subject, opts)`
      look up: a function is called with no arguments, a model or collection
      goes through `getCacheKey`, any other value is used as it is. */
  function LookupKey(subject: Subject, opts: Option<Options>): (name: string)
    ensures subject.Literal? ==> name == KeyText(subject.key)
    ensures subject.Instance? ==> name == KeyText(CacheKey(subject, opts))
  {
    match subject
    case Thunk(call, _) => KeyText(call(None))
    case Instance(_) => KeyText(CacheKey(subject, opts))
    case Literal(k) => KeyText(k)
  }

  /** A model or collection with its own `getCacheKey` gets exactly that
      method's result: no url and no "?" suffix are involved. */
  lemma CustomKeyIsVerbatim(e: Entity, opts: Option<Options>)
    requires e.customKey.Some?
    ensures CacheKey(Instance(e), opts) == e.customKey.value(opts)
  {
  }

  /** A function subject is a lazy key: its result is the key, with no suffix. */
  lemma FunctionSubjectIsCalled(call: Option<Options> -> Key, url: UrlProp, opts: Option<Options>)
    ensures CacheKey(Thunk(call, url), opts) == call(opts)
  {
  }

  /** A truthy `opts.url` makes the subject's own url irrelevant: two models
      without custom keys get the same key from the same options. */
  lemma UrlOptionWins(e1: Entity, e2: Entity, opts: Option<Options>)
    requires e1.customKey.None? && e2.customKey.None?
    requires UrlOptionTruthy(opts)
    ensures CacheKey(Instance(e1), opts) == CacheKey(Instance(e2), opts)
    ensures KeyTruthy(CacheKey(Instance(e1), opts))
  {
  }

  /** For a model or collection without a custom key, truthy data gives
      `base + "?" + data` (the string as it is, an object as serialised), and
      no data gives the base alone. */
  lemma QuerySuffix(e: Entity, opts: Option<Options>)
    requires e.customKey.None?
    ensures opts.Some? && QueryTruthy(opts.value.data) ==>
              CacheKey(Instance(e), opts) == Str(KeyText(BaseUrl(e.url, opts)) + "?" + QueryText(opts.value.data))
    ensures opts.Some? && opts.value.data.Text? && opts.value.data.text != "" ==>
              CacheKey(Instance(e), opts) == Str(KeyText(BaseUrl(e.url, opts)) + "?" + opts.value.data.text)
    ensures !(opts.Some? && QueryTruthy(opts.value.data)) ==> CacheKey(Instance(e), opts) == BaseUrl(e.url, opts)
  {
  }

  /** Keys separate requests: the same url with two different query strings
      gives two different keys, so their entries never collide. */
  lemma {:induction false} DistinctQueriesDistinctKeys(e: Entity, o1: Options, o2: Options)
    requires e.customKey.None?
    requires BaseUrl(e.url, Some(o1)) == BaseUrl(e.url, Some(o2))
    requires QueryTruthy(o1.data) && QueryTruthy(o2.data)
    requires QueryText(o1.data) != QueryText(o2.data)
    ensures CacheKey(Instance(e), Some(o1)) != CacheKey(Instance(e), Some(o2))
  {
    var prefix := KeyText(BaseUrl(e.url, Some(o1))) + "?";
    var t1, t2 := QueryText(o1.data), QueryText(o2.data);
    assert (prefix + t1)[|prefix|..] == t1;
    assert (prefix + t2)[|prefix|..] == t2;
    assert KeyText(BaseUrl(e.url, Some(o1))) + "?" + t1 == prefix + t1;
    assert KeyText(BaseUrl(e.url, Some(o2))) + "?" + t2 == prefix + t2;
  }

  /** Apart from function subjects, the code as written and the corrected
      derivation agree. */
  lemma AsWrittenAgreesOffFunctions(subject: Subject, opts: Option<Options>)
    requires !subject.Thunk?
    ensures CacheKeyAsWritten(subject, opts) == CacheKey(subject, opts)
  {
  }

  /** The discrepancy: a function subject `() => "/widgets"` with no `url`
      property and no options gets the key `undefined` as written, where the
      lazy-key branch would give "/widgets". */
  lemma FunctionSubjectNotCalledAsWritten()
    ensures var f := (o: Option<Options>) => Str("/widgets");
            && CacheKeyAsWritten(Thunk(f, Missing), None) == Undefined
            && CacheKey(Thunk(f, Missing), None) == Str("/widgets")
  {
  }
}

=== FILE: prefetch.dfy ===
/**
 * Prefetch records: what `saveToPrefetch` stores so that a request can be
 * replayed on a later start-up, and the guard a replay task evaluates.
 */
module Prefetch {
  import opened Types
  import opened Keys
  import opened Entries

  /** The callback options `saveToPrefetch` deletes before storing, since
      functions do not survive serialisation. `prefillSuccess` is not among them. */
  const StrippedHooks: set<Hook> := {BeforeSend, Success, Fail, Error}

  /** `{type, saveTime, opts}` */
  datatype PrefetchRecord = PrefetchRecord(kind: Kind, saveTime: int, opts: Options)

  /** A replay queued by `_prefetchInitializer`: fetch a fresh instance of
      `kind` with the stored options; `key` is the record's cache key. */
  datatype Task = Replay(key: string, kind: Kind, opts: Options)

  /** `instance instanceof Backbone.Model ? 'Model' : 'Collection'` */
  function KindOf(instance: Subject): Kind {
    if instance.Instance? && instance.entity.kind == Model then Model else Collection
  }

  /** `instance.url`: functions may carry one; other plain values have none. */
  function UrlPropOf(instance: Subject): UrlProp {
    match instance
    case Instance(e) => e.url
    case Thunk(_, u) => u
    case Literal(_) => Missing
  }

  /** A url value as an option: `{url: undefined}` is no url. */
  function UrlOption(k: Key): Option<string> {
    if k.Str? then Some(k.s) else None
  }

  /** The `opts` saved in a prefetch record: `_.extend({}, injected, opts)`
      with the callbacks deleted, `injected` being `{url: <instance url>}`
      when the instance has a url and `opts.url` is falsy. */
  function StoredOptions(instance: Subject, opts: Options): (o: Options)
    ensures o.hooks == opts.hooks - StrippedHooks
    ensures BeforeSend !in o.hooks && Success !in o.hooks && Fail !in o.hooks && Error !in o.hooks
    ensures opts.url.Some? ==> o.url == opts.url
    ensures opts.url.None? && UrlPropTruthy(UrlPropOf(instance)) ==> o.url == UrlOption(ResolveUrl(UrlPropOf(instance)))
    ensures opts.url.None? && !UrlPropTruthy(UrlPropOf(instance)) ==> o.url.None?
    ensures o.(url := opts.url, hooks := opts.hooks) == opts
  {
    var injected :=
      if UrlPropTruthy(UrlPropOf(instance)) && !UrlOptionTruthy(Some(opts))
      then UrlOption(ResolveUrl(UrlPropOf(instance)))
      else None;
    opts.(url := if opts.url.Some? then opts.url else injected, hooks := opts.hooks - StrippedHooks)
  }

  /** The record `saveToPrefetch(instance, opts)` stores at time `now`. */
  function RecordFor(instance: Subject, opts: Options, now: int): (r: PrefetchRecord)
    ensures r.kind == Model <==> instance.Instance? && instance.entity.kind == Model
    ensures r.saveTime == now
    ensures r.opts == StoredOptions(instance, opts)
  {
    PrefetchRecord(KindOf(instance), now, StoredOptions(instance, opts))
  }

  /** The key a record is stored under: `getCacheKey(instance, opts)`, with
      the caller's options rather than the stored ones. */
  function RecordKey(instance: Subject, opts: Options): string {
    KeyText(CacheKey(instance, Some(opts)))
  }

  /** Replaying a stored record fetches with a url whenever the record was
      saved from an instance that has one or from options that carry one. */
  lemma StoredRecordKeepsUrl(instance: Subject, opts: Options, now: int)
    requires UrlOptionTruthy(Some(opts)) || (UrlPropTruthy(UrlPropOf(instance)) && ResolveUrl(UrlPropOf(instance)).Str?)
    ensures RecordFor(instance, opts, now).opts.url.Some?
  {
  }

  /** `possibleResult.data`: cache entries are written with `expires`,
      `lastSync`, `prefillExpires` and `value`, never with `data`. */
  function DataProperty(e: Entry): Option<Entry> {
    None
  }

  /** `data.expires > now` for a `data` object that exists; `false > now` is false. */
  predicate DataFresh(data: Option<Entry>, now: int) {
    data.Some? && data.value.expires.At? && data.value.expires.time > now
  }

  /** The guard of a replay task:
      `!possibleResult || !possibleResult.data || possibleResult.data.expires > now`. */
  predicate ReplayFetches(possible: Option<Entry>, now: int) {
    || possible.None?
    || DataProperty(possible.value).None?
    || DataFresh(DataProperty(possible.value), now)
  }

  /** As written the guard never holds a replay back, fresh entry or not. */
  lemma ReplayAlwaysFetches(possible: Option<Entry>, now: int)
    ensures ReplayFetches(possible, now)
  {
  }

  /** The replays `_prefetchInitializer` queues for the loaded records, in order. */
  function ReplayTasks(requests: seq<(string, PrefetchRecord)>): (ts: seq<Task>)
    ensures |ts| == |requests|
    ensures forall i :: 0 <= i < |requests| ==>
              ts[i] == Replay(requests[i].0, requests[i].1.kind, requests[i].1.opts)
  {
    if requests == [] then []
    else [Replay(requests[0].0, requests[0].1.kind, requests[0].1.opts)] + ReplayTasks(requests[1..])
  }

  /** Queuing one more record queues one more task, at the end. */
  lemma ReplayTasksStep(requests: seq<(string, PrefetchRecord)>, i: int)
    requires 0 <= i < |requests|
    ensures ReplayTasks(requests[..i + 1]) ==
              ReplayTasks(requests[..i]) + [Replay(requests[i].0, requests[i].1.kind, requests[i].1.opts)]
  {
    var longer, shorter := ReplayTasks(requests[..i + 1]), ReplayTasks(requests[..i]);
    assert forall j :: 0 <= j < i ==> longer[j] == shorter[j];
  }
}

=== FILE: types.dfy ===
/**
 * The values the fetch cache works on: cache keys, response payloads, the
 * options a caller passes to `fetch`/`sync`, and the subjects a key is derived
 * from. Wherever the JavaScript code branches on the truthiness of a value,
 * that truthiness is spelled out here as a predicate.
 */
module Types {

  datatype Option<+T> = None | Some(value: T)

  /** A cache key as the JavaScript code produces it: a string, or `undefined`
      when neither a custom key nor a url could be resolved. */
  datatype Key = Undefined | Str(s: string)

  /** `String(k)`: the text a key contributes to a concatenation, which is
      also the property name it selects when it indexes a plain object
      (`obj[undefined]` reads the property "undefined"). */
  function KeyText(k: Key): string {
    match k
    case Undefined => "undefined"
    case Str(s) => s
  }

  /** `!!k`: `undefined` and the empty string are falsy. */
  predicate KeyTruthy(k: Key) {
    k.Str? && k.s != ""
  }

  /** A response payload, kept up to what the cache observes of it: either a
      falsy value (`undefined`, `null`, `false`, `0`, `""`) or a truthy one,
      identified by its JSON text. */
  datatype Attrs = Falsy | Payload(json: string)

  /** The `url` property of a model, a collection or a function: absent, a
      plain string attribute, or an accessor method whose result is given. */
  datatype UrlProp = Missing | Attribute(url: string) | Accessor(result: Key)

  /** `_.isFunction(x.url) ? x.url() : x.url` */
  function ResolveUrl(p: UrlProp): Key {
    match p
    case Missing => Undefined
    case Attribute(u) => Str(u)
    case Accessor(r) => r
  }

  /** `x.url` used as a condition: a method is always truthy. */
  predicate UrlPropTruthy(p: UrlProp) {
    p.Accessor? || (p.Attribute? && p.url != "")
  }

  /** The `data` option: absent, a query string, or an object that jQuery's
      `$.param` serialises; such an object is represented by that
      serialisation, since the serialiser itself is not part of this model. */
  datatype Query = NoData | Text(text: string) | Params(encoded: string)

  /** `opts.data` used as a condition: an object is always truthy. */
  predicate QueryTruthy(q: Query) {
    q.Params? || (q.Text? && q.text != "")
  }

  /** What `opts.data` contributes after the "?": the string itself, or `$.param(opts.data)`. */
  function QueryText(q: Query): string {
    match q
    case NoData => ""
    case Text(t) => t
    case Params(e) => e
  }

  /** The `expires` and `prefillExpires` options: unset, `false`, or a number of seconds. */
  datatype Ttl = Unset | Off | Seconds(n: int)

  /** `opts.expires` used as a condition: only a non-zero number is truthy. */
  predicate TtlTruthy(t: Ttl) {
    t.Seconds? && t.n != 0
  }

  /** The callback-valued options a caller may pass. */
  datatype Hook = BeforeSend | Success | Fail | Error | PrefillSuccess

  /** The options recognised by the cache on every `fetch`, `setCache` and `sync`.
      `cache` and `async` distinguish "not given" from an explicit boolean,
      because the code tests `opts.cache === false` and `opts.async == null`. */
  datatype Options = Options(
    cache: Option<bool>,
    prefill: bool,
    expires: Ttl,
    prefillExpires: Ttl,
    lastSync: Option<int>,
    url: Option<string>,
    data: Query,
    async: Option<bool>,
    hooks: set<Hook>)

  /** `{}`: what `opts || {}` gives when no options are passed. */
  const NoOptions: Options := Options(None, false, Unset, Unset, None, None, NoData, None, {})

  /** `opts && opts.url` */
  predicate UrlOptionTruthy(opts: Option<Options>) {
    opts.Some? && opts.value.url.Some? && opts.value.url.value != ""
  }

  /** `opts || {}` */
  function OrNoOptions(opts: Option<Options>): Options {
    if opts.Some? then opts.value else NoOptions
  }

  datatype Kind = Model | Collection

  /** A Backbone model or collection as the cache sees it: its kind, its own
      `getCacheKey` method if it defines one, its `url` property, and the
      collection a model belongs to. */
  datatype Entity = Entity(
    kind: Kind,
    customKey: Option<Option<Options> -> Key>,
    url: UrlProp,
    collection: Option<Entity>)

  /** The first argument of `getCacheKey`, `getCache` and `clearItem`: a model
      or collection, a function (a lazy key, which like every function may
      carry a `url` property), or a plain key value. */
  datatype Subject =
    | Instance(entity: Entity)
    | Thunk(call: Option<Options> -> Key, url: UrlProp)
    | Literal(key: Key)
}
